=== FILE: README.md ===
# Image-analysis backend: a Dafny model of its request handling

The backend exposes two services over HTTP. The Gemini service takes an
uploaded image and a prompt and returns the text a hosted Gemini model
generates for them. The Vision service takes a batch of base64 images and
returns Cloud Vision web-detection results. This project models the parts
of both that have behaviour worth stating precisely. It proves properties
of that model with Dafny.

- **GeminiService** (`gemini_service.dfy`) models `get_gemini_client`. The
  client handle is memoised like `lru_cache(maxsize=1)`. The handle is built
  from `GOOGLE_CLOUD_PROJECT` and then `VERTEX_AI_LOCATION`, checked in that
  order, and only a success is cached. The module also models `health_check`
  and the retry loop of `analyze_image`. The loop makes at most three
  `generate_content` calls. It retries only errors whose text contains
  `429` or `RESOURCE_EXHAUSTED`. Before each retry it sleeps
  `2 * 2^attempt` seconds. A reply with no text becomes a fixed
  placeholder. A terminal failure becomes a 500 that carries the last
  error.
- **GeminiRouter** (`gemini_router.dfy`) models the checks the handler runs
  before it calls the service, in the handler's order:
  1. the content type starts with `image/`;
  2. a known, non-zero size is at most 10 MiB;
  3. the prompt is not blank after `strip()`;
  4. the untrimmed prompt has at most 5000 characters.

  It also models the health endpoint, which maps the probe to 200 or 503.
- **VisionService** (`vision_service.dfy`) models the translators.
  - Application requests become SDK requests in order. A bad base64 payload
    or an unknown feature name aborts the whole batch with a 400.
  - SDK responses come back one for one. A non-empty error message takes
    precedence over web-detection data.
  - `web_detection` turns every failure, including those 400s, into a 500.
- **VisionModels** and **VisionSdk** hold the datatypes of both sides.
  **PyStr** holds Python's `isspace`, `strip`, `startswith` and `in`.
  **Common** holds the shared result types and the string form of an
  `HTTPException`.

The outside world enters as data:
- the environment is a map;
- the SDK's client constructor, the Gemini model (the outcome of its k-th
  call), `base64.b64decode` and `batch_annotate_images` are oracle
  parameters;
- `getattr(vision.Feature.Type, name)` is membership in a set of known names.

The sleeps the retry loop would take are returned as a list of delays.
Each run also records the requests it sent upstream.

The backoff comment in `analyze_image` names sleeps of 2, 4 and 8 seconds.
The loop never takes the third: only the delays 2 and 4 are ever slept,
because the third attempt never sleeps (`DelaysArePrefixOfTwoFour`).

A proto-plus message is truthy when one of its fields is truthy. Every
field of `WebDetection` is a repeated field, so a `WebDetection` counts as
set exactly when one of its six lists is non-empty (`VisionSdk.IsSet`).

## Model

| member | source | states |
|---|---|---|
| Common.ErrorString | app/services/vision_service.py:49-52 | The `str()` of an HTTPException that `web_detection` embeds is `str(status_code)` (decimal, no leading zero), then ": ", then the detail. The status code can be parsed back from it. |
| PyStr.Strip | app/api/routers/gemini.py:42 | `prompt.strip()` is a contiguous slice of the prompt. It neither starts nor ends with whitespace, and only whitespace lies outside it. |
| PyStr.StripEmptyIffAllSpace | app/api/routers/gemini.py:42-43 | `len(prompt.strip()) == 0` holds exactly when every character of the prompt is whitespace. |
| PyStr.ContainsIffOccurs | app/services/gemini_service.py:123 | The substring test used to classify errors holds exactly when the marker occurs at some position of the error text. |
| GeminiService.InitClient | app/services/gemini_service.py:30-50 | A client is built exactly when both variables are non-empty and the SDK constructor succeeds, and it is built from those two values. A missing project is reported before a missing location. Every failure is a 500 whose detail is the init prefix plus the error text. |
| GeminiService.GetGeminiClient | app/services/gemini_service.py:19-50 | A cached client is returned without looking at the environment. On a miss, the call succeeds exactly when the configuration and the constructor do. A success is cached and a failure leaves the cache empty. |
| GeminiService.HealthCheck | app/services/gemini_service.py:150-162 | The probe returns true exactly when a client is cached or can be built now, and it never raises. After the probe a client is cached exactly when it returned true. |
| GeminiService.CachedClientIsReused | app/services/gemini_service.py:19-20 | After a successful call, the next call returns the same client and cache, whatever the environment and SDK now do. |
| GeminiService.FailureIsNotCached | app/services/gemini_service.py:19-20 | A failed call happened on an empty cache. The next call behaves exactly like a first call. |
| GeminiService.HealthyProbeThenAnalysisCallsUpstream | app/services/gemini_service.py:150-162 | After a healthy probe, a later `analyze_image` reuses the cached client. It reaches the upstream model at least once, whatever the environment and SDK now do. |
| GeminiService.FirstSuccessIsFinal | app/services/gemini_service.py:19-50 | In any series of calls, every call after the first success returns that same client. |
| GeminiService.PartMimeType | app/services/gemini_service.py:78-80 | The image part's MIME type is the upload's content type when that is truthy and `image/jpeg` otherwise. It is never empty. |
| GeminiService.ResultText | app/services/gemini_service.py:106-108 | The result text is never empty. It is the reply's text when that is truthy and the fixed placeholder otherwise. |
| GeminiService.RetryLoop | app/services/gemini_service.py:83-142 | The loop makes between 1 and 3 calls and sends the same request each time. Every call before the last was rate-limited. The last call is a reply, a non-rate-limit failure, or the third attempt. Before each retry it sleeps Backoff(k). The last call's outcome decides the result or the 500 carrying its error. |
| GeminiService.AnalyzeImage | app/services/gemini_service.py:68-147 | The client is obtained once, before any upstream call. An init failure ends the request with that 500, with no call and no sleep. Otherwise every request sent holds the model name, the prompt, the image bytes and the part's MIME type. A success has status "success" and a non-empty result. Every failure is a 500. After a successful init, the outcome, the requests sent and the sleeps are exactly those of `RetryLoop` from attempt 0, so the sleeps are bounded as that loop's are and a failure's detail is the analysis prefix plus the last error. |
| GeminiService.DelaysArePrefixOfTwoFour | app/services/gemini_service.py:124-131 | The sleeps taken are a prefix of [2, 4]. No sleep of 8 seconds ever happens. |
| GeminiService.TotalDelayAtMostSix | app/services/gemini_service.py:124-131 | One invocation sleeps at most 6 seconds in total. |
| GeminiService.NonRateLimitFailsImmediately | app/services/gemini_service.py:137-142 | A first error that is not a rate limit ends the request after one call, with no sleep, as a 500 carrying that error. |
| GeminiService.TwoRateLimitsThenSuccess | app/services/gemini_service.py:84-132 | Two rate limits followed by a reply give three calls, the sleeps [2, 4], and the reply's text. |
| GeminiService.RateLimitedThroughout | app/services/gemini_service.py:119-147 | Three rate limits give exactly three calls, the sleeps [2, 4], and a 500 carrying the third error. |
| GeminiService.EmptyReplyUsesPlaceholder | app/services/gemini_service.py:106-108 | A reply whose text is None or empty yields the placeholder with status "success". |
| GeminiService.SuccessIff | app/services/gemini_service.py:84-142 | The loop succeeds exactly when some attempt k < 3 gets a reply and all earlier attempts were rate-limited. |
| GeminiService.OnlyCallsMadeMatter | app/services/gemini_service.py:84-101 | The run depends only on the outcomes of the calls it actually makes. |
| GeminiRouter.Validate | app/api/routers/gemini.py:29-48 | A request passes exactly when it is an image, its size is unknown or at most 10 MiB, the prompt has a non-whitespace character, and the prompt has at most 5000 characters. Otherwise the first failing check, in that order, gives its 400. |
| GeminiRouter.AnalyzeEndpoint | app/api/routers/gemini.py:29-50 | A rejected request returns its 400 with no other effect. An accepted one is exactly the service call. Every failure is a 400 or a 500, with at most 3 calls and 2 sleeps. |
| GeminiRouter.GeminiHealth | app/api/routers/gemini.py:53-63 | The endpoint is healthy exactly when a client is cached or can be built. Healthy gives the fixed status and service name. Unhealthy gives 503 "Gemini API接続エラー" and leaves the cache empty. |
| GeminiRouter.SizeBoundary | app/api/routers/gemini.py:36-39 | A size of exactly 10 MiB passes the size check, and one byte more is rejected with the size error. |
| GeminiRouter.UnknownOrZeroSizeIsNotChecked | app/api/routers/gemini.py:36 | An unknown size or a size of 0 never fails the size check. |
| GeminiRouter.PromptLengthBoundary | app/api/routers/gemini.py:45-48 | A 5000-character prompt passes and a 5001-character prompt is rejected. |
| GeminiRouter.TextPlainIsRejected | app/api/routers/gemini.py:30-33 | A `text/plain` upload is rejected with "画像ファイルのみサポートしています", whatever the prompt. |
| GeminiRouter.SpacesPromptIsRejected | app/api/routers/gemini.py:42-43 | A prompt of three spaces with a valid JPEG is rejected with "プロンプトが空です". |
| GeminiRouter.FirstFailingCheckWins | app/api/routers/gemini.py:29-48 | The checks run in order. An oversized non-image gets the media-type error. A blank over-long prompt gets the empty-prompt error. |
| GeminiRouter.SentMimeTypeIsTheUploads | app/api/routers/gemini.py:30-50 | Every request the endpoint sends upstream carries the upload's own `image/…` type, so the `image/jpeg` fallback is never used. |
| GeminiRouter.RejectionHasNoEffect | app/api/routers/gemini.py:29-50 | A request failing any check gets a 400 with no upstream call, no sleep and no change to the client cache. |
| VisionService.ConvertFeature | app/services/vision_service.py:72-84 | A feature converts exactly when its name is known, and it keeps that name. `max_results` is copied when `maxResults` is truthy and is 0 otherwise. An unknown name gives a 400 that names it. |
| VisionService.ConvertFeatures | app/services/vision_service.py:71-84 | The features convert exactly when all names are known. The result has one feature per input, in order. Otherwise the 400 names the first unknown feature. |
| VisionService.ConvertRequest | app/services/vision_service.py:60-88 | A request converts exactly when its image decodes and all its features are known. The result holds the decoded bytes and the converted features. A decode failure gives a 400 "Base64デコードエラー: …" before any feature is looked at. |
| VisionService.ConvertRequests | app/services/vision_service.py:58-90 | The batch converts exactly when every request does. The result has one request per input, in order. Otherwise the error is that of the first request that does not convert, and no partial list is returned. |
| VisionService.ConvertToVisionRequests | app/services/vision_service.py:54-90 | The batch converts exactly when every request's image decodes and all its feature names are known. On success, there is one SDK request per input, in order, each holding the decoded bytes and the converted features. Failure is a 400 whose detail carries the base64 prefix or the unsupported-feature prefix. |
| VisionService.ConversionErrorsAreBadRequests | app/services/vision_service.py:63-80 | Every error raised while converting requests is a 400 with one of the two conversion prefixes. |
| VisionService.ConvertWebDetection | app/services/vision_service.py:114-151 | Each of the six lists keeps its length and order. Entities and labels carry all their fields. Images keep only their URL, and pages their URL, title and nested image lists. Each page's full and partial image lists are converted the same way. |
| VisionService.ImagesOf | app/services/vision_service.py:126-129 | An image list keeps its length and order, with each URL carried over. |
| VisionService.PageOf | app/services/vision_service.py:132-141 | A page keeps its URL and title. Its full and partial image lists are each converted image by image, in order. |
| VisionService.ImagesOfIffUrls | app/services/vision_service.py:126-129 | Two image lists convert to the same list exactly when their URLs agree position by position. |
| VisionService.PageOfIffSamePage | app/services/vision_service.py:132-141 | Two pages convert to the same page exactly when they agree on URL, title and the URLs of both nested lists. |
| VisionService.ConvertWebDetectionDropsOnlyScores | app/services/vision_service.py:114-151 | Two SDK results convert to the same result exactly when they agree on everything except the scores of images and pages. |
| VisionService.ImageScoreIsDropped | app/services/vision_service.py:126-127 | Two SDK results that differ only in one image's score convert to the same result, so the conversion is not one-to-one. |
| VisionSdk.IsSet | app/services/vision_service.py:105 | The `elif image_response.web_detection` test holds exactly when the message differs from the default, empty `WebDetection`. |
| VisionService.ConvertImageResponse | app/services/vision_service.py:96-110 | The error is set exactly when the message is non-empty, with its code and message. Web detection is set exactly when the message is empty and the SDK's web detection is non-empty. Never both are set. |
| VisionService.ConvertToResponse | app/services/vision_service.py:92-112 | There is one response per upstream response, in order, and none has both an error and web detection set. |
| VisionService.WebDetectionCall | app/services/vision_service.py:26-52 | Every failure is a 500 "Vision API呼び出しエラー: …". The API is called exactly when conversion succeeds, with one request per input. A conversion error is embedded as "<status>: <detail>". When the API call succeeds, the result is exactly the converted API response. When it raises, the result is the 500 whose detail is the prefix followed by the API's error text. |
| VisionService.BadBase64AbortsBatch | app/services/vision_service.py:39-68 | A bad second image fails the whole batch, even when the first converts. The API is not called. The result is 500 "Vision API呼び出しエラー: 400: Base64デコードエラー: …". |
| VisionService.UnknownFeatureIsRejected | app/services/vision_service.py:74-80 | The first unknown feature name aborts the conversion with 400 "サポートされていない機能タイプ: <name>". |

## Left out

- Logging, `time.time()` measurements and the real `time.sleep`: each sleep is recorded as a delay in the run instead.
- `await file.read()` and `file.file.seek(0)` are I/O. The upload's bytes are a field of the modelled `UploadFile`.
- The SDK calls `genai.Client`, `generate_content` and `batch_annotate_images` are foreign calls. They are modelled as oracle parameters.
- The `types.Part`/`types.Content` payload is recorded as a `GenerateRequest` value. A failure of `Part.from_bytes`, which sits outside the `try`, is not modelled.
- Constructing `ImageAnnotatorClient` in `VisionService.__init__` is left out. The `annotate` oracle stands for `self.client.batch_annotate_images`.
- `str(e)` of upstream, SDK and base64 exceptions is library behaviour. Each oracle supplies the error text directly.
- The concurrent first-use race of `lru_cache` is out of scope. The model is sequential.
- `app/main.py` (app wiring, CORS, the global exception handler), `app/api/routers/health.py` (clock-dependent constant payloads), `app/api/routers/vision.py` and `VisionService.health_check` are framework wiring or SDK construction. They are not part of this model.
- FastAPI's own 422 response to a request with a missing field happens before the handler runs. It is not modelled.
- `WebEntity.score` is a float that is only passed through. It is an opaque type.
- VisionService.ConvertWebDetection: drops the `score` of every image and page, because the application's `WebImage` and `WebPage` have no score field. Two SDK results that differ only there convert alike (`ConvertWebDetectionDropsOnlyScores`).
- The `label` field of `BestGuessLabel` and of the SDK's `WebLabel` is named `labelText`, because `label` is a Dafny keyword.
- VisionService.ConvertFeature: does not model the range check protobuf applies when `max_results` is set to a value outside 32 bits. That raises an exception other than `AttributeError`, which `web_detection` would report as a 500.

=== FILE: common.dfy ===
/**
 Values shared by every part of the backend model: optional values, results
 with an error channel, the HTTP error the FastAPI handlers raise, and the
 string form Python gives to integers and to an `HTTPException`.
 */
module Common {

  /** A byte of an uploaded or decoded image. */
  newtype byte = b: int | 0 <= b < 256

  /** Python's `X | None`. */
  datatype Option<+T> = None | Some(value: T)

  /** A value or the exception that replaced it; usable with `:-`. */
  datatype Result<+T, +E> = Success(value: T) | Failure(error: E) {

    predicate IsFailure() {
      Failure?
    }

    function PropagateFailure<U>(): Result<U, E>
      requires Failure?
    {
      Failure(error)
    }

    function Extract(): T
      requires Success?
    {
      value
    }
  }

  /** A check that either passes or names the error that stops the request. */
  datatype Verdict<+E> = Pass | Fail(error: E)

  /** FastAPI's `HTTPException(status_code, detail)`. */
  datatype HttpError = HttpError(status: nat, detail: string)

  /** The character of a decimal digit `d`. */
  function DigitChar(d: nat): (c: char)
    requires d < 10
    ensures '0' <= c <= '9'
  {
    ['0', '1', '2', '3', '4', '5', '6', '7', '8', '9'][d]
  }

  /** The value of a decimal digit character. */
  function DigitValue(c: char): (d: nat)
    requires '0' <= c <= '9'
    ensures d < 10
    ensures DigitChar(d) == c
  {
    if c == '0' then 0 else if c == '1' then 1 else if c == '2' then 2
    else if c == '3' then 3 else if c == '4' then 4 else if c == '5' then 5
    else if c == '6' then 6 else if c == '7' then 7 else if c == '8' then 8
    else 9
  }

  predicate IsDecimal(s: string) {
    forall i :: 0 <= i < |s| ==> '0' <= s[i] <= '9'
  }

  /** Python's `str(n)` for a non-negative integer: decimal digits, no leading zero. */
  function NatToString(n: nat): (s: string)
    ensures |s| > 0
    ensures IsDecimal(s)
    ensures |s| > 1 ==> s[0] != '0'
    decreases n
  {
    if n < 10 then [DigitChar(n)]
    else NatToString(n / 10) + [DigitChar(n % 10)]
  }

  /** Reads a string of decimal digits back as a number (the reference for `NatToString`). */
  function ParseDecimal(s: string): nat
    requires IsDecimal(s)
    decreases |s|
  {
    if |s| == 0 then 0
    else 10 * ParseDecimal(s[..|s| - 1]) + DigitValue(s[|s| - 1])
  }

  /** `str(n)` loses nothing: parsing it gives `n` back. */
  lemma {:induction false} NatToStringRoundTrip(n: nat)
    ensures ParseDecimal(NatToString(n)) == n
    decreases n
  {
    var s := NatToString(n);
    if n < 10 {
      assert s[..|s| - 1] == [];
    } else {
      NatToStringRoundTrip(n / 10);
      assert s[..|s| - 1] == NatToString(n / 10);
      assert DigitValue(s[|s| - 1]) == n % 10;
    }
  }

  /** Starlette's `str(HTTPException)`: the status code, a colon, a space, the detail. */
  function ErrorString(e: HttpError): (s: string)
    ensures |s| > |e.detail| + 2
    ensures s[|s| - |e.detail|..] == e.detail
    ensures s[|s| - |e.detail| - 2..|s| - |e.detail|] == ": "
    ensures s[..|s| - |e.detail| - 2] == NatToString(e.status)
    ensures IsDecimal(s[..|s| - |e.detail| - 2]) && ParseDecimal(s[..|s| - |e.detail| - 2]) == e.status
  {
    var code := NatToString(e.status);
    NatToStringRoundTrip(e.status);
    assert (code + ": " + e.detail)[..|code|] == code;
    assert (code + ": " + e.detail)[|code|..|code| + 2] == ": ";
    code + ": " + e.detail
  }
}

=== FILE: gemini_router.dfy ===
/**
 The `/api/v1/gemini` router: the ordered, short-circuiting validation of an
 analyze request (media type, size, blank prompt, prompt length) in front of
 the service, and the health endpoint's mapping of the client probe to 200/503.
 */
module GeminiRouter {
  import opened Common
  import opened PyStr
  import opened GeminiService

  const MAX_FILE_SIZE: int := 10 * 1024 * 1024
  const MAX_PROMPT_LENGTH: int := 5000
  const IMAGE_PREFIX := "image/"
  const ONLY_IMAGES := "画像ファイルのみサポートしています"
  const FILE_TOO_LARGE := "ファイルサイズは10MB以下にしてください"
  const EMPTY_PROMPT := "プロンプトが空です"
  const PROMPT_TOO_LONG := "プロンプトは5000文字以下にしてください"
  const HEALTH_UNAVAILABLE := "Gemini API接続エラー"
  const SERVICE_NAME := "Google Gemini 2.5 Pro via Vertex AI"

  // The four conditions a request must meet, stated independently of how the
  // handler tests them.

  /** The declared content type names an image. */
  predicate IsImageType(file: UploadFile) {
    file.contentType.Some? && StartsWith(file.contentType.value, IMAGE_PREFIX)
  }

  /** The declared size, if any, is within 10 MiB. */
  predicate SizeWithinLimit(file: UploadFile) {
    file.size.None? || file.size.value <= MAX_FILE_SIZE
  }

  /** The prompt has at least one non-whitespace character. */
  predicate HasText(prompt: string) {
    exists i :: 0 <= i < |prompt| && !IsSpace(prompt[i])
  }

  /** The prompt, untrimmed, has at most 5000 characters. */
  predicate LengthWithinLimit(prompt: string) {
    |prompt| <= MAX_PROMPT_LENGTH
  }

  function BadRequest(detail: string): HttpError {
    HttpError(400, detail)
  }

  /** The checks at the top of `analyze_image`, in the order the handler runs them;
      the first that fails decides the 400. */
  function Validate(file: UploadFile, prompt: string): (v: Verdict<HttpError>)
    ensures v.Pass? <==> IsImageType(file) && SizeWithinLimit(file) && HasText(prompt) && LengthWithinLimit(prompt)
    ensures !IsImageType(file) ==> v == Fail(BadRequest(ONLY_IMAGES))
    ensures IsImageType(file) && !SizeWithinLimit(file) ==> v == Fail(BadRequest(FILE_TOO_LARGE))
    ensures IsImageType(file) && SizeWithinLimit(file) && !HasText(prompt) ==> v == Fail(BadRequest(EMPTY_PROMPT))
    ensures IsImageType(file) && SizeWithinLimit(file) && HasText(prompt) && !LengthWithinLimit(prompt) ==>
              v == Fail(BadRequest(PROMPT_TOO_LONG))
  {
    StripEmptyIffAllSpace(prompt);
    var contentType := file.contentType;
    if !Truthy(contentType) || !StartsWith(contentType.value, IMAGE_PREFIX) then
      Fail(BadRequest(ONLY_IMAGES))
    else if file.size.Some? && file.size.value != 0 && file.size.value > MAX_FILE_SIZE then
      Fail(BadRequest(FILE_TOO_LARGE))
    else if |Strip(prompt)| == 0 then
      Fail(BadRequest(EMPTY_PROMPT))
    else if |prompt| > MAX_PROMPT_LENGTH then
      Fail(BadRequest(PROMPT_TOO_LONG))
    else
      Pass
  }

  /** `POST /api/v1/gemini/analyze`: validation, then the service. */
  function AnalyzeEndpoint(cache: Option<Client>, env: Env, ctor: ClientCtor, up: Upstream,
                           file: UploadFile, prompt: string): (r: ServiceRun)
    ensures Validate(file, prompt).Fail? ==>
              r == ServiceRun(Failure(Validate(file, prompt).error), cache, [], [])
    ensures Validate(file, prompt).Pass? ==>
              r == AnalyzeImage(cache, env, ctor, up, file, prompt)
    ensures r.outcome.Failure? ==> r.outcome.error.status in {400, 500}
    ensures |r.sent| <= MAX_RETRIES && |r.delays| < MAX_RETRIES
  {
    match Validate(file, prompt)
    case Fail(e) => ServiceRun(Failure(e), cache, [], [])
    case Pass => AnalyzeImage(cache, env, ctor, up, file, prompt)
  }

  /** `GeminiHealthResponse`. */
  datatype HealthResponse = HealthResponse(status: string, service: string)

  /** A health request's reply and the cache it leaves behind. */
  datatype HealthReply = HealthReply(result: Result<HealthResponse, HttpError>, cache: Option<Client>)

  /** `GET /api/v1/gemini/health`: healthy maps to a fixed body, unhealthy to 503. */
  function GeminiHealth(cache: Option<Client>, env: Env, ctor: ClientCtor): (r: HealthReply)
    ensures r.result.Success? <==> cache.Some? || (Configured(env) && Constructs(env, ctor))
    ensures r.result.Success? ==> r.result.value == HealthResponse("healthy", SERVICE_NAME)
    ensures r.result.Failure? ==> r.result.error == HttpError(503, HEALTH_UNAVAILABLE) && r.cache.None?
    ensures r.cache == GetGeminiClient(cache, env, ctor).cache
  {
    var probe := HealthCheck(cache, env, ctor);
    if !probe.healthy then HealthReply(Failure(HttpError(503, HEALTH_UNAVAILABLE)), probe.cache)
    else HealthReply(Success(HealthResponse("healthy", SERVICE_NAME)), probe.cache)
  }

  // ---------------------------------------------------------------------------
  // Properties of the validator and the endpoint
  // ---------------------------------------------------------------------------

  /** A file of exactly 10 MiB passes the size check; one byte more does not. */
  lemma SizeBoundary(ct: string, name: Option<string>, content: seq<byte>, prompt: string)
    requires StartsWith(ct, IMAGE_PREFIX)
    ensures SizeWithinLimit(UploadFile(name, Some(ct), Some(10485760), content))
    ensures Validate(UploadFile(name, Some(ct), Some(10485761), content), prompt) == Fail(BadRequest(FILE_TOO_LARGE))
  {
  }

  /** An unknown size, or a size of zero, never trips the size check. */
  lemma UnknownOrZeroSizeIsNotChecked(file: UploadFile)
    requires file.size == None || file.size == Some(0)
    ensures SizeWithinLimit(file)
  {
  }

  /** A 5000-character prompt is accepted as to length; 5001 characters are not. */
  lemma PromptLengthBoundary(file: UploadFile, prompt: string)
    requires IsImageType(file) && SizeWithinLimit(file) && HasText(prompt)
    ensures |prompt| == 5000 ==> Validate(file, prompt) == Pass
    ensures |prompt| == 5001 ==> Validate(file, prompt) == Fail(BadRequest(PROMPT_TOO_LONG))
  {
  }

  /** A `text/plain` upload is refused as not an image, whatever the prompt. */
  lemma TextPlainIsRejected(name: Option<string>, size: Option<int>, content: seq<byte>, prompt: string)
    ensures Validate(UploadFile(name, Some("text/plain"), size, content), prompt) == Fail(BadRequest(ONLY_IMAGES))
  {
    assert "text/plain"[..|IMAGE_PREFIX|] != IMAGE_PREFIX by {
      assert "text/plain"[0] == 't';
    }
  }

  /** A prompt of three spaces with a valid JPEG is refused as empty. */
  lemma SpacesPromptIsRejected(name: Option<string>, content: seq<byte>)
    ensures Validate(UploadFile(name, Some("image/jpeg"), None, content), "   ") == Fail(BadRequest(EMPTY_PROMPT))
  {
    assert StartsWith("image/jpeg", IMAGE_PREFIX) by {
      assert "image/jpeg"[..6] == "image/";
    }
  }

  /** The checks run in order: an over-long prompt of only whitespace is reported as
      empty, and an oversized non-image as a media-type error. */
  lemma FirstFailingCheckWins(file: UploadFile, prompt: string)
    ensures !IsImageType(file) && !SizeWithinLimit(file) ==> Validate(file, prompt) == Fail(BadRequest(ONLY_IMAGES))
    ensures IsImageType(file) && SizeWithinLimit(file) && !HasText(prompt) && !LengthWithinLimit(prompt) ==>
              Validate(file, prompt) == Fail(BadRequest(EMPTY_PROMPT))
  {
  }

  /** Through the endpoint, every request sent upstream carries the upload's own
      image type: the `image/jpeg` fallback of the service is never used. */
  lemma SentMimeTypeIsTheUploads(cache: Option<Client>, env: Env, ctor: ClientCtor, up: Upstream,
                                 file: UploadFile, prompt: string)
    ensures var r := AnalyzeEndpoint(cache, env, ctor, up, file, prompt);
            forall k :: 0 <= k < |r.sent| ==>
              r.sent[k].mimeType == file.contentType.value && StartsWith(r.sent[k].mimeType, IMAGE_PREFIX)
  {
  }

  /** A rejected request has no effect: no upstream call, no sleep, and the client
      cache is not even consulted. */
  lemma RejectionHasNoEffect(cache: Option<Client>, env: Env, ctor: ClientCtor, up: Upstream,
                             file: UploadFile, prompt: string)
    requires !IsImageType(file) || !SizeWithinLimit(file) || !HasText(prompt) || !LengthWithinLimit(prompt)
    ensures var r := AnalyzeEndpoint(cache, env, ctor, up, file, prompt);
            r.outcome.Failure? && r.outcome.error.status == 400 && r.cache == cache && r.sent == [] && r.delays == []
  {
  }
}

=== FILE: gemini_service.dfy ===
/**
 The Gemini service: a client handle memoised like `lru_cache(maxsize=1)`,
 built from two environment variables, and a bounded retry loop around
 `generate_content` that retries only rate-limit failures, backing off
 2 * 2^attempt seconds.

 The outside world enters as data: the environment is a map, the SDK's
 client constructor and the upstream model are oracles, and the sleeps the
 loop takes are returned as a list of delays instead of being performed.
 */
module GeminiService {
  import opened Common
  import opened PyStr

  const MAX_RETRIES: nat := 3
  const INITIAL_RETRY_DELAY: nat := 2
  const MODEL := "gemini-2.5-pro"
  const DEFAULT_MIME_TYPE := "image/jpeg"
  const PROJECT_VAR := "GOOGLE_CLOUD_PROJECT"
  const LOCATION_VAR := "VERTEX_AI_LOCATION"
  const MISSING_PROJECT := "GOOGLE_CLOUD_PROJECT環境変数が設定されていません"
  const MISSING_LOCATION := "VERTEX_AI_LOCATION環境変数が設定されていません"
  const INIT_ERROR_PREFIX := "Gemini API初期化エラー: "
  const ANALYSIS_ERROR_PREFIX := "Gemini API分析エラー: "
  const NO_RESULT_TEXT := "分析結果を取得できませんでした"
  const RATE_LIMIT_CODE := "429"
  const RATE_LIMIT_STATUS := "RESOURCE_EXHAUSTED"

  // ---------------------------------------------------------------------------
  // Client construction and memoisation
  // ---------------------------------------------------------------------------

  /** The process environment, as `os.getenv` sees it. */
  type Env = map<string, string>

  /** A Vertex AI client handle, remembered with the configuration it was built from. */
  datatype Client = Client(project: string, location: string)

  /** What `genai.Client(vertexai=True, project=…, location=…)` did. */
  datatype CtorOutcome = Constructed | CtorFailed(message: string)

  /** The SDK constructor, as an oracle over the project and location it is given. */
  type ClientCtor = (string, string) -> CtorOutcome

  function Getenv(env: Env, name: string): Option<string> {
    if name in env then Some(env[name]) else None
  }

  /** Python truthiness of `os.getenv(…)`: set and not empty. */
  predicate Truthy(v: Option<string>) {
    v.Some? && v.value != ""
  }

  /** Both variables are set to non-empty values. */
  predicate Configured(env: Env) {
    Truthy(Getenv(env, PROJECT_VAR)) && Truthy(Getenv(env, LOCATION_VAR))
  }

  /** The constructor succeeds on the configured project and location. */
  predicate Constructs(env: Env, ctor: ClientCtor)
    requires Configured(env)
  {
    ctor(env[PROJECT_VAR], env[LOCATION_VAR]).Constructed?
  }

  /** The body of `get_gemini_client`, run on a cache miss. The project is checked
      before the location, and every failure becomes a 500 with the init prefix. */
  function InitClient(env: Env, ctor: ClientCtor): (r: Result<Client, HttpError>)
    ensures r.Success? <==> Configured(env) && Constructs(env, ctor)
    ensures r.Success? ==> r.value == Client(env[PROJECT_VAR], env[LOCATION_VAR])
    ensures !Truthy(Getenv(env, PROJECT_VAR)) ==>
              r == Failure(HttpError(500, INIT_ERROR_PREFIX + MISSING_PROJECT))
    ensures Truthy(Getenv(env, PROJECT_VAR)) && !Truthy(Getenv(env, LOCATION_VAR)) ==>
              r == Failure(HttpError(500, INIT_ERROR_PREFIX + MISSING_LOCATION))
    ensures Configured(env) && !Constructs(env, ctor) ==>
              r == Failure(HttpError(500, INIT_ERROR_PREFIX + ctor(env[PROJECT_VAR], env[LOCATION_VAR]).message))
  {
    var project := Getenv(env, PROJECT_VAR);
    if !Truthy(project) then
      Failure(HttpError(500, INIT_ERROR_PREFIX + MISSING_PROJECT))
    else
      var location := Getenv(env, LOCATION_VAR);
      if !Truthy(location) then
        Failure(HttpError(500, INIT_ERROR_PREFIX + MISSING_LOCATION))
      else
        match ctor(project.value, location.value)
        case Constructed => Success(Client(project.value, location.value))
        case CtorFailed(message) => Failure(HttpError(500, INIT_ERROR_PREFIX + message))
  }

  /** A call of `get_gemini_client` and the cache it leaves behind. */
  datatype ClientCall = ClientCall(result: Result<Client, HttpError>, cache: Option<Client>)

  /** `get_gemini_client()` under `lru_cache(maxsize=1)`: a cached handle is returned
      without reading the environment; a miss runs the body and caches only a success. */
  function GetGeminiClient(cache: Option<Client>, env: Env, ctor: ClientCtor): (r: ClientCall)
    ensures cache.Some? ==> r.result == Success(cache.value) && r.cache == cache
    ensures cache.None? ==> (r.result.Success? <==> Configured(env) && Constructs(env, ctor))
    ensures r.result.Success? <==> r.cache.Some?
    ensures r.result.Success? ==> r.cache == Some(r.result.value)
    ensures r.result.Failure? ==>
              r.result.error.status == 500 && StartsWith(r.result.error.detail, INIT_ERROR_PREFIX)
  {
    match cache
    case Some(client) => ClientCall(Success(client), cache)
    case None =>
      var result := InitClient(env, ctor);
      ClientCall(result, if result.Success? then Some(result.value) else None)
  }

  /** The result of `health_check()` and the cache it leaves behind. */
  datatype HealthProbe = HealthProbe(healthy: bool, cache: Option<Client>)

  /** `health_check()`: true exactly when a client can be had, and never an error. */
  function HealthCheck(cache: Option<Client>, env: Env, ctor: ClientCtor): (r: HealthProbe)
    ensures r.healthy <==> cache.Some? || (Configured(env) && Constructs(env, ctor))
    ensures r.healthy <==> r.cache.Some?
    ensures cache.Some? ==> r.cache == cache
  {
    var call := GetGeminiClient(cache, env, ctor);
    HealthProbe(call.result.Success?, call.cache)
  }

  /** Once a client is cached, later calls return it whatever the environment
      and the SDK would now do, and the cache stays as it is. */
  lemma CachedClientIsReused(cache: Option<Client>, env: Env, ctor: ClientCtor, env': Env, ctor': ClientCtor)
    requires GetGeminiClient(cache, env, ctor).result.Success?
    ensures var first := GetGeminiClient(cache, env, ctor);
            GetGeminiClient(first.cache, env', ctor') == first
  {
  }

  /** A failed construction is not cached: the next call starts from scratch. */
  lemma FailureIsNotCached(cache: Option<Client>, env: Env, ctor: ClientCtor, env': Env, ctor': ClientCtor)
    requires GetGeminiClient(cache, env, ctor).result.Failure?
    ensures cache.None?
    ensures GetGeminiClient(GetGeminiClient(cache, env, ctor).cache, env', ctor') == GetGeminiClient(None, env', ctor')
  {
  }

  /** A healthy probe caches the client, so a later analysis reaches the upstream
      model even if the environment has since lost its configuration. */
  lemma HealthyProbeThenAnalysisCallsUpstream(cache: Option<Client>, env: Env, ctor: ClientCtor,
                                              env': Env, ctor': ClientCtor, up: Upstream,
                                              file: UploadFile, prompt: string)
    requires HealthCheck(cache, env, ctor).healthy
    ensures var r := AnalyzeImage(HealthCheck(cache, env, ctor).cache, env', ctor', up, file, prompt);
            1 <= |r.sent| && r.cache == HealthCheck(cache, env, ctor).cache
  {
  }

  /** One call of `get_gemini_client` in a series: the environment and SDK at that moment. */
  datatype Probe = Probe(env: Env, ctor: ClientCtor)

  /** The results of calling `get_gemini_client` once per probe, in order, threading the cache. */
  function ClientCalls(cache: Option<Client>, probes: seq<Probe>): (rs: seq<Result<Client, HttpError>>)
    ensures |rs| == |probes|
    decreases |probes|
  {
    if |probes| == 0 then []
    else
      var call := GetGeminiClient(cache, probes[0].env, probes[0].ctor);
      [call.result] + ClientCalls(call.cache, probes[1..])
  }

  /** Over any series of calls, the first success fixes the client for good: every
      later call returns that same client. */
  lemma {:induction false} FirstSuccessIsFinal(cache: Option<Client>, probes: seq<Probe>, i: nat, j: nat)
    requires i < j < |probes|
    requires ClientCalls(cache, probes)[i].Success?
    ensures ClientCalls(cache, probes)[j] == ClientCalls(cache, probes)[i]
    decreases |probes|
  {
    var call := GetGeminiClient(cache, probes[0].env, probes[0].ctor);
    var rest := ClientCalls(call.cache, probes[1..]);
    assert ClientCalls(cache, probes) == [call.result] + rest;
    if i == 0 {
      AllFromCache(call.result.value, probes[1..], j - 1);
    } else {
      FirstSuccessIsFinal(call.cache, probes[1..], i - 1, j - 1);
    }
  }

  /** With a client cached, every call in a series returns it. */
  lemma {:induction false} AllFromCache(client: Client, probes: seq<Probe>, k: nat)
    requires k < |probes|
    ensures ClientCalls(Some(client), probes)[k] == Success(client)
    decreases |probes|
  {
    assert ClientCalls(Some(client), probes)
        == [Success(client)] + ClientCalls(Some(client), probes[1..]);
    if k > 0 {
      AllFromCache(client, probes[1..], k - 1);
    }
  }

  // ---------------------------------------------------------------------------
  // The retry loop around generate_content
  // ---------------------------------------------------------------------------

  /** What one `generate_content` call did: a reply whose `text` may be None or
      empty, or an exception, seen through `str(e)`. */
  datatype UpstreamOutcome = Replied(text: Option<string>) | Raised(error: string)

  /** The upstream model as an oracle: the outcome of the k-th call (from 0). */
  type Upstream = nat -> UpstreamOutcome

  /** The content sent on every attempt: the prompt text and the image part. */
  datatype GenerateRequest = GenerateRequest(model: string, prompt: string, image: seq<byte>, mimeType: string)

  /** `GeminiAnalyzeResponse`. */
  datatype Analysis = Analysis(result: string, status: string)

  /** One invocation: its outcome, the requests it sent in order, and the sleeps it took in order. */
  datatype Run = Run(outcome: Result<Analysis, HttpError>, sent: seq<GenerateRequest>, delays: seq<nat>)

  /** The rate-limit test of `analyze_image`: the error text mentions 429 or RESOURCE_EXHAUSTED. */
  predicate IsRateLimited(error: string) {
    Contains(error, RATE_LIMIT_CODE) || Contains(error, RATE_LIMIT_STATUS)
  }

  /** The outcome is a failure that the loop retries. */
  predicate Retryable(o: UpstreamOutcome) {
    o.Raised? && IsRateLimited(o.error)
  }

  function Pow2(n: nat): (p: nat)
    ensures p >= 1
  {
    if n == 0 then 1 else 2 * Pow2(n - 1)
  }

  /** The sleep before the retry that follows a rate-limited attempt `attempt`. */
  function Backoff(attempt: nat): nat {
    INITIAL_RETRY_DELAY * Pow2(attempt)
  }

  /** `response.text if response.text else <placeholder>`. */
  function ResultText(text: Option<string>): (t: string)
    ensures t != ""
    ensures Truthy(text) ==> t == text.value
    ensures !Truthy(text) ==> t == NO_RESULT_TEXT
  {
    if Truthy(text) then text.value else NO_RESULT_TEXT
  }

  /** The outcome of the attempt the loop stops on: a reply becomes the result,
      an exception the 500 that ends the request. */
  function Settle(o: UpstreamOutcome): Result<Analysis, HttpError> {
    match o
    case Replied(text) => Success(Analysis(ResultText(text), "success"))
    case Raised(error) => Failure(HttpError(500, ANALYSIS_ERROR_PREFIX + error))
  }

  /** The `for attempt in range(MAX_RETRIES)` loop from iteration `attempt` on.
      It makes n >= 1 calls: every call but the last was rate-limited, the last one
      is a reply, a non-rate-limit failure, or the third call; it sleeps
      Backoff(k) after each rate-limited call k but the last; and the last call's
      outcome settles the request. */
  function RetryLoop(req: GenerateRequest, up: Upstream, attempt: nat): (r: Run)
    requires attempt < MAX_RETRIES
    ensures 1 <= |r.sent| <= MAX_RETRIES - attempt
    ensures forall k :: 0 <= k < |r.sent| ==> r.sent[k] == req
    ensures forall k :: attempt <= k < attempt + |r.sent| - 1 ==> Retryable(up(k))
    ensures attempt + |r.sent| < MAX_RETRIES ==> !Retryable(up(attempt + |r.sent| - 1))
    ensures |r.delays| == |r.sent| - 1
    ensures forall k :: 0 <= k < |r.delays| ==> r.delays[k] == Backoff(attempt + k)
    ensures r.outcome == Settle(up(attempt + |r.sent| - 1))
    decreases MAX_RETRIES - attempt
  {
    match up(attempt)
    case Replied(text) =>
      Run(Settle(up(attempt)), [req], [])
    case Raised(error) =>
      if IsRateLimited(error) && attempt < MAX_RETRIES - 1 then
        var rest := RetryLoop(req, up, attempt + 1);
        Run(rest.outcome, [req] + rest.sent, [Backoff(attempt)] + rest.delays)
      else
        Run(Settle(up(attempt)), [req], [])
  }

  /** `file.content_type or "image/jpeg"`. */
  function PartMimeType(contentType: Option<string>): (m: string)
    ensures Truthy(contentType) ==> m == contentType.value
    ensures !Truthy(contentType) ==> m == DEFAULT_MIME_TYPE
    ensures m != ""
  {
    if Truthy(contentType) then contentType.value else DEFAULT_MIME_TYPE
  }

  /** Starlette's `UploadFile`: declared content type and size, and the bytes `read()` returns. */
  datatype UploadFile = UploadFile(filename: Option<string>, contentType: Option<string>, size: Option<int>, content: seq<byte>)

  /** A request's effect on the process: its outcome, the cache afterwards, and the trace. */
  datatype ServiceRun = ServiceRun(outcome: Result<Analysis, HttpError>, cache: Option<Client>,
                                   sent: seq<GenerateRequest>, delays: seq<nat>)

  /** `analyze_image(file, prompt)` of the service: the client is obtained once, before
      the loop; a failure there ends the request before any upstream call. */
  function AnalyzeImage(cache: Option<Client>, env: Env, ctor: ClientCtor, up: Upstream,
                        file: UploadFile, prompt: string): (r: ServiceRun)
    ensures var init := GetGeminiClient(cache, env, ctor);
            r.cache == init.cache
            && (init.result.Failure? ==> r.outcome == Failure(init.result.error) && r.sent == [] && r.delays == [])
            && (init.result.Success? ==> 1 <= |r.sent| <= MAX_RETRIES)
    ensures forall k :: 0 <= k < |r.sent| ==>
              r.sent[k] == GenerateRequest(MODEL, prompt, file.content, PartMimeType(file.contentType))
    ensures r.outcome.Success? ==> r.outcome.value.status == "success" && r.outcome.value.result != ""
    ensures r.outcome.Failure? ==> r.outcome.error.status == 500
    ensures GetGeminiClient(cache, env, ctor).result.Success? ==>
              var run := RetryLoop(GenerateRequest(MODEL, prompt, file.content, PartMimeType(file.contentType)), up, 0);
              r.outcome == run.outcome && r.sent == run.sent && r.delays == run.delays
  {
    var init := GetGeminiClient(cache, env, ctor);
    match init.result
    case Failure(e) => ServiceRun(Failure(e), init.cache, [], [])
    case Success(_) =>
      var req := GenerateRequest(MODEL, prompt, file.content, PartMimeType(file.contentType));
      var run := RetryLoop(req, up, 0);
      ServiceRun(run.outcome, init.cache, run.sent, run.delays)
  }

  // ---------------------------------------------------------------------------
  // Properties of one invocation of the loop
  // ---------------------------------------------------------------------------

  /** The sleeps ever taken are a prefix of [2, 4]: at most two, six seconds in all,
      and the 8-second step named in the source comment is never reached. */
  lemma DelaysArePrefixOfTwoFour(req: GenerateRequest, up: Upstream)
    ensures var d := RetryLoop(req, up, 0).delays;
            d <= [2, 4] && (forall k :: 0 <= k < |d| ==> d[k] != 8)
  {
    var d := RetryLoop(req, up, 0).delays;
    assert Backoff(0) == 2;
    assert Backoff(1) == 4 by { assert Pow2(1) == 2; }
    if |d| == 2 {
      assert d == [2, 4];
    }
  }

  /** Sum of a delay trace. */
  function Total(d: seq<nat>): nat {
    if |d| == 0 then 0 else d[0] + Total(d[1..])
  }

  /** The worst-case time slept by one invocation is six seconds. */
  lemma TotalDelayAtMostSix(req: GenerateRequest, up: Upstream)
    ensures Total(RetryLoop(req, up, 0).delays) <= 6
  {
    var d := RetryLoop(req, up, 0).delays;
    DelaysArePrefixOfTwoFour(req, up);
    if |d| == 2 {
      assert d == [2, 4];
      assert Total([4]) == 4 + Total([]);
    } else if |d| == 1 {
      assert d == [2];
      assert Total([2]) == 2 + Total([]);
    }
  }

  /** A first failure that is not a rate limit ends the loop at once: one call, no sleep. */
  lemma NonRateLimitFailsImmediately(req: GenerateRequest, up: Upstream)
    requires up(0).Raised? && !IsRateLimited(up(0).error)
    ensures RetryLoop(req, up, 0) == Run(Failure(HttpError(500, ANALYSIS_ERROR_PREFIX + up(0).error)), [req], [])
  {
  }

  /** Rate limited twice and then answered: three calls, sleeps of 2 and 4, the answer returned. */
  lemma TwoRateLimitsThenSuccess(req: GenerateRequest, up: Upstream, text: string)
    requires Retryable(up(0)) && Retryable(up(1))
    requires up(2) == Replied(Some(text)) && text != ""
    ensures RetryLoop(req, up, 0) == Run(Success(Analysis(text, "success")), [req, req, req], [2, 4])
  {
    assert Pow2(1) == 2;
  }

  /** Rate limited on every attempt: exactly three calls, sleeps of 2 and 4, and a 500
      that carries the third error. */
  lemma RateLimitedThroughout(req: GenerateRequest, up: Upstream)
    requires Retryable(up(0)) && Retryable(up(1)) && Retryable(up(2))
    ensures RetryLoop(req, up, 0)
         == Run(Failure(HttpError(500, ANALYSIS_ERROR_PREFIX + up(2).error)), [req, req, req], [2, 4])
  {
    assert Pow2(1) == 2;
  }

  /** A reply with no text still yields a non-empty result: the placeholder. */
  lemma EmptyReplyUsesPlaceholder(req: GenerateRequest, up: Upstream)
    requires up(0) == Replied(Some("")) || up(0) == Replied(None)
    ensures RetryLoop(req, up, 0).outcome == Success(Analysis(NO_RESULT_TEXT, "success"))
  {
  }

  /** The loop succeeds exactly when some attempt k < 3 is answered after k rate limits. */
  lemma {:induction false} SuccessIff(req: GenerateRequest, up: Upstream)
    ensures RetryLoop(req, up, 0).outcome.Success?
        <==> exists k :: 0 <= k < MAX_RETRIES && up(k).Replied?
                          && forall j :: 0 <= j < k ==> Retryable(up(j))
  {
    var r := RetryLoop(req, up, 0);
    var n := |r.sent|;
    if r.outcome.Success? {
      assert up(n - 1).Replied?;
    } else {
      forall k | 0 <= k < MAX_RETRIES && up(k).Replied?
        ensures exists j :: 0 <= j < k && !Retryable(up(j))
      {
        assert 0 <= n - 1 < k && !Retryable(up(n - 1));
      }
    }
  }

  /** The loop only looks at the outcomes of the calls it makes: two upstreams that
      agree on those give the same run. */
  lemma {:induction false} OnlyCallsMadeMatter(req: GenerateRequest, up: Upstream, up': Upstream, attempt: nat)
    requires attempt < MAX_RETRIES
    requires forall k :: attempt <= k < attempt + |RetryLoop(req, up, attempt).sent| ==> up'(k) == up(k)
    ensures RetryLoop(req, up', attempt) == RetryLoop(req, up, attempt)
    decreases MAX_RETRIES - attempt
  {
    var r := RetryLoop(req, up, attempt);
    assert up'(attempt) == up(attempt);
    match up(attempt)
    case Replied(_) =>
    case Raised(error) =>
      if IsRateLimited(error) && attempt < MAX_RETRIES - 1 {
        var rest := RetryLoop(req, up, attempt + 1);
        assert r.sent == [req] + rest.sent;
        forall k | attempt + 1 <= k < attempt + 1 + |rest.sent|
          ensures up'(k) == up(k)
        {
          assert attempt <= k < attempt + |r.sent|;
        }
        OnlyCallsMadeMatter(req, up, up', attempt + 1);
      }
  }
}

=== FILE: pystr.dfy ===
/**
 The few Python `str` operations the handlers rely on: `isspace`, `strip`,
 `startswith` and the substring test `sub in s`.
 */
module PyStr {

  /** Python's `str.isspace` for one character: the ASCII separators and
      controls U+0009..U+000D, U+001C..U+0020, and the Unicode spaces
      (NEL, NBSP, OGHAM, U+2000..U+200A, LS, PS, NNBSP, MMSP, the ideographic
      space U+3000). */
  predicate IsSpace(c: char) {
    || '\t' <= c <= '\r'
    || '\U{1C}' <= c <= ' '
    || c == '\U{85}' || c == '\U{A0}' || c == '\U{1680}'
    || '\U{2000}' <= c <= '\U{200A}'
    || c == '\U{2028}' || c == '\U{2029}' || c == '\U{202F}' || c == '\U{205F}'
    || c == '\U{3000}'
  }

  /** Every character of `s` is whitespace (true of the empty string). */
  predicate AllSpace(s: string) {
    forall i :: 0 <= i < |s| ==> IsSpace(s[i])
  }

  /** The index of the first non-whitespace character of `s` at or after `i`,
      or `|s|` when there is none: where `lstrip` cuts. */
  function SkipSpace(s: string, i: nat): (j: nat)
    requires i <= |s|
    ensures i <= j <= |s|
    ensures forall k :: i <= k < j ==> IsSpace(s[k])
    ensures j < |s| ==> !IsSpace(s[j])
    decreases |s| - i
  {
    if i < |s| && IsSpace(s[i]) then SkipSpace(s, i + 1) else i
  }

  /** The index just past the last non-whitespace character of `s[i..j]`, or `i`
      when there is none: where `rstrip` cuts. */
  function SkipSpaceBack(s: string, i: nat, j: nat): (k: nat)
    requires i <= j <= |s|
    ensures i <= k <= j
    ensures forall m :: k <= m < j ==> IsSpace(s[m])
    ensures k > i ==> !IsSpace(s[k - 1])
    decreases j - i
  {
    if j > i && IsSpace(s[j - 1]) then SkipSpaceBack(s, i, j - 1) else j
  }

  /** `s.strip()`: a contiguous slice of `s` whose ends are not whitespace and
      outside of which there is only whitespace. */
  function Strip(s: string): (t: string)
    ensures exists a :: 0 <= a <= a + |t| <= |s| && t == s[a..a + |t|]
                         && AllSpace(s[..a]) && AllSpace(s[a + |t|..])
    ensures |t| > 0 ==> !IsSpace(t[0]) && !IsSpace(t[|t| - 1])
  {
    var a := SkipSpace(s, 0);
    var b := SkipSpaceBack(s, a, |s|);
    SliceBetweenSpaces(s, a, b);
    s[a..b]
  }

  /** A slice with only whitespace before and after it, and non-whitespace at both
      of its ends, is what `strip()` describes. */
  lemma SliceBetweenSpaces(s: string, a: nat, b: nat)
    requires a <= b <= |s|
    requires forall k :: 0 <= k < a ==> IsSpace(s[k])
    requires forall m :: b <= m < |s| ==> IsSpace(s[m])
    requires a < b ==> !IsSpace(s[a]) && !IsSpace(s[b - 1])
    ensures var t := s[a..b];
            && (exists a' :: 0 <= a' <= a' + |t| <= |s| && t == s[a'..a' + |t|]
                             && AllSpace(s[..a']) && AllSpace(s[a' + |t|..]))
            && (|t| > 0 ==> !IsSpace(t[0]) && !IsSpace(t[|t| - 1]))
  {
    var t := s[a..b];
    assert 0 <= a <= a + |t| <= |s| && t == s[a..a + |t|] && AllSpace(s[..a]) && AllSpace(s[a + |t|..]);
    assert |t| > 0 ==> t[0] == s[a] && t[|t| - 1] == s[b - 1];
  }

  /** `len(s.strip()) == 0` holds exactly when `s` is all whitespace. */
  lemma StripEmptyIffAllSpace(s: string)
    ensures |Strip(s)| == 0 <==> AllSpace(s)
  {
    var a := SkipSpace(s, 0);
    var b := SkipSpaceBack(s, a, |s|);
    assert Strip(s) == s[a..b];
    if a < |s| {
      assert !IsSpace(s[a]);
    }
  }

  /** `s.startswith(prefix)`. */
  predicate StartsWith(s: string, prefix: string) {
    |prefix| <= |s| && s[..|prefix|] == prefix
  }

  /** `sub` occurs in `s` at index `i`. */
  predicate OccursAt(s: string, sub: string, i: int) {
    0 <= i && i + |sub| <= |s| && s[i..i + |sub|] == sub
  }

  /** Python's `sub in s`, scanning `s` from the left. */
  predicate Contains(s: string, sub: string)
    decreases |s|
  {
    StartsWith(s, sub) || (|s| > 0 && Contains(s[1..], sub))
  }

  /** Dropping the first character of `s` shifts every later occurrence one place left. */
  lemma OccursShift(s: string, sub: string, i: int)
    requires |s| > 0 && i > 0
    ensures OccursAt(s, sub, i) <==> OccursAt(s[1..], sub, i - 1)
  {
    if i + |sub| <= |s| {
      assert s[1..][i - 1..i - 1 + |sub|] == s[i..i + |sub|];
    }
  }

  /** The scan agrees with the positional definition of a substring, in both directions. */
  lemma {:induction false} ContainsIffOccurs(s: string, sub: string)
    ensures Contains(s, sub) <==> exists i :: OccursAt(s, sub, i)
    decreases |s|
  {
    if StartsWith(s, sub) {
      assert OccursAt(s, sub, 0);
    } else if |s| == 0 {
      forall i
        ensures !OccursAt(s, sub, i)
      {
      }
    } else {
      ContainsIffOccurs(s[1..], sub);
      if Contains(s[1..], sub) {
        var i :| OccursAt(s[1..], sub, i);
        OccursShift(s, sub, i + 1);
      } else {
        forall i
          ensures !OccursAt(s, sub, i)
        {
          if i > 0 {
            OccursShift(s, sub, i);
          }
        }
      }
    }
  }
}

=== FILE: vision_models.dfy ===
/**
 The application's own request and response shapes for the Vision endpoint:
 the pydantic models of `app/models/vision.py`.
 */
module VisionModels {
  import opened Common

  /** A confidence score: a float the service passes through untouched. */
  type Score(==)

  datatype Feature = Feature(featureType: string, maxResults: Option<int>)

  /** Base64 text of the image. */
  datatype ImageData = ImageData(content: string)

  datatype VisionRequest = VisionRequest(image: ImageData, features: seq<Feature>)

  datatype VisionBatchRequest = VisionBatchRequest(requests: seq<VisionRequest>)

  datatype WebEntity = WebEntity(entityId: Option<string>, score: Option<Score>, description: Option<string>)

  datatype WebImage = WebImage(url: Option<string>)

  datatype WebPage = WebPage(url: Option<string>, pageTitle: Option<string>,
                             fullMatchingImages: seq<WebImage>, partialMatchingImages: seq<WebImage>)

  /** `BestGuessLabel`; its `label` field is `labelText` here, `label` being a Dafny keyword. */
  datatype BestGuessLabel = BestGuessLabel(labelText: Option<string>, languageCode: Option<string>)

  datatype WebDetection = WebDetection(
    webEntities: seq<WebEntity>,
    fullMatchingImages: seq<WebImage>,
    partialMatchingImages: seq<WebImage>,
    pagesWithMatchingImages: seq<WebPage>,
    visuallySimilarImages: seq<WebImage>,
    bestGuessLabels: seq<BestGuessLabel>)

  datatype ErrorInfo = ErrorInfo(code: int, message: string)

  datatype VisionResponse = VisionResponse(webDetection: Option<WebDetection>, error: Option<ErrorInfo>)

  datatype VisionBatchResponse = VisionBatchResponse(responses: seq<VisionResponse>)
}

=== FILE: vision_sdk.dfy ===
/**
 The Cloud Vision SDK messages the service builds and reads. Protobuf scalar
 fields are never absent: strings default to "" and integers to 0.
 */
module VisionSdk {
  import opened Common
  import M = VisionModels

  /** A member of `vision.Feature.Type`, known by its name. */
  datatype FeatureType = FeatureType(name: string)

  datatype Feature = Feature(featureType: FeatureType, maxResults: int)

  datatype Image = Image(content: seq<byte>)

  datatype AnnotateImageRequest = AnnotateImageRequest(image: Image, features: seq<Feature>)

  /** `google.rpc.Status`. */
  datatype Status = Status(code: int, message: string)

  datatype WebEntity = WebEntity(entityId: string, score: M.Score, description: string)

  datatype WebImage = WebImage(url: string, score: M.Score)

  datatype WebPage = WebPage(url: string, score: M.Score, pageTitle: string,
                             fullMatchingImages: seq<WebImage>, partialMatchingImages: seq<WebImage>)

  /** `WebLabel`; its `label` field is `labelText` here, `label` being a Dafny keyword. */
  datatype WebLabel = WebLabel(labelText: string, languageCode: string)

  datatype WebDetection = WebDetection(
    webEntities: seq<WebEntity>,
    fullMatchingImages: seq<WebImage>,
    partialMatchingImages: seq<WebImage>,
    pagesWithMatchingImages: seq<WebPage>,
    visuallySimilarImages: seq<WebImage>,
    bestGuessLabels: seq<WebLabel>)

  datatype AnnotateImageResponse = AnnotateImageResponse(error: Status, webDetection: WebDetection)

  datatype BatchAnnotateImagesResponse = BatchAnnotateImagesResponse(responses: seq<AnnotateImageResponse>)

  /** The default `WebDetection`: every repeated field empty. */
  const EMPTY_WEB_DETECTION := WebDetection([], [], [], [], [], [])

  /** Truthiness of a proto-plus message: one of its fields is truthy. Every field
      of `WebDetection` is a repeated field, so that means some list is non-empty,
      which is to say the message differs from the default one. */
  predicate IsSet(w: WebDetection)
    ensures IsSet(w) <==> w != EMPTY_WEB_DETECTION
  {
    || |w.webEntities| > 0
    || |w.fullMatchingImages| > 0
    || |w.partialMatchingImages| > 0
    || |w.pagesWithMatchingImages| > 0
    || |w.visuallySimilarImages| > 0
    || |w.bestGuessLabels| > 0
  }
}

=== FILE: vision_service.dfy ===
/**
 The Vision service's translators: application requests to SDK requests
 (fail-fast on a bad base64 payload or an unknown feature name), SDK responses
 back to application responses (one per image, an error taking precedence over
 web-detection data), and `web_detection`, which wraps every failure as a 500.

 `base64.b64decode` and `getattr(vision.Feature.Type, …)` are library
 behaviour: the first is an oracle, the second membership in a set of names.
 */
module VisionService {
  import opened Common
  import opened PyStr
  import opened VisionModels
  import Sdk = VisionSdk

  const BASE64_ERROR_PREFIX := "Base64デコードエラー: "
  const UNSUPPORTED_FEATURE_PREFIX := "サポートされていない機能タイプ: "
  const API_ERROR_PREFIX := "Vision API呼び出しエラー: "

  /** `base64.b64decode`: the decoded bytes, or `str()` of the exception it raised. */
  type Base64Decoder = string -> Result<seq<byte>, string>

  /** The SDK's `batch_annotate_images`: a batch response, or `str()` of the exception. */
  type Annotator = seq<Sdk.AnnotateImageRequest> -> Result<Sdk.BatchAnnotateImagesResponse, string>

  // ---------------------------------------------------------------------------
  // Requests
  // ---------------------------------------------------------------------------

  /** The `max_results` the SDK feature ends up with: copied when `maxResults` is
      truthy, the protobuf default 0 otherwise. */
  function MaxResults(f: Feature): int {
    if f.maxResults.Some? && f.maxResults.value != 0 then f.maxResults.value else 0
  }

  /** Every feature names a member of `vision.Feature.Type`. */
  predicate FeaturesKnown(fs: seq<Feature>, known: set<string>) {
    forall j :: 0 <= j < |fs| ==> fs[j].featureType in known
  }

  /** Feature `j` is the first whose name is unknown. */
  predicate FirstUnknown(fs: seq<Feature>, known: set<string>, j: int)
    requires 0 <= j < |fs|
  {
    fs[j].featureType !in known && forall k :: 0 <= k < j ==> fs[k].featureType in known
  }

  /** The request converts: its image decodes and its features are all known. */
  predicate RequestConverts(req: VisionRequest, decode: Base64Decoder, known: set<string>) {
    decode(req.image.content).Success? && FeaturesKnown(req.features, known)
  }

  /** `out` is the SDK form of `req`: the decoded image, and one feature per input
      feature, in order, with its type resolved by name. */
  predicate ConvertedFrom(out: Sdk.AnnotateImageRequest, req: VisionRequest, decode: Base64Decoder) {
    && decode(req.image.content).Success?
    && out.image.content == decode(req.image.content).value
    && |out.features| == |req.features|
    && forall j :: 0 <= j < |req.features| ==>
         out.features[j] == Sdk.Feature(Sdk.FeatureType(req.features[j].featureType), MaxResults(req.features[j]))
  }

  /** One feature of the inner loop. */
  function ConvertFeature(f: Feature, known: set<string>): (r: Result<Sdk.Feature, HttpError>)
    ensures r.Success? <==> f.featureType in known
    ensures r.Success? ==> r.value.featureType.name == f.featureType
    ensures r.Success? && f.maxResults.Some? && f.maxResults.value != 0 ==> r.value.maxResults == f.maxResults.value
    ensures r.Success? && (f.maxResults.None? || f.maxResults.value == 0) ==> r.value.maxResults == 0
    ensures r.Failure? ==> r.error == HttpError(400, UNSUPPORTED_FEATURE_PREFIX + f.featureType)
  {
    if f.featureType !in known then
      Failure(HttpError(400, UNSUPPORTED_FEATURE_PREFIX + f.featureType))
    else
      Success(Sdk.Feature(Sdk.FeatureType(f.featureType), MaxResults(f)))
  }

  /** The features of one request, in order; the first unknown name aborts. */
  function ConvertFeatures(fs: seq<Feature>, known: set<string>): (r: Result<seq<Sdk.Feature>, HttpError>)
    ensures r.Success? <==> FeaturesKnown(fs, known)
    ensures r.Success? ==> |r.value| == |fs|
    ensures r.Success? ==> forall j :: 0 <= j < |fs| ==>
              r.value[j] == Sdk.Feature(Sdk.FeatureType(fs[j].featureType), MaxResults(fs[j]))
    ensures r.Failure? ==>
              exists j :: 0 <= j < |fs| && FirstUnknown(fs, known, j)
                          && r.error == HttpError(400, UNSUPPORTED_FEATURE_PREFIX + fs[j].featureType)
    decreases |fs|
  {
    if |fs| == 0 then Success([])
    else
      var head :- ConvertFeature(fs[0], known);
      var tail :- ConvertFeatures(fs[1..], known);
      Success([head] + tail)
  }

  /** One iteration of the outer loop: decode the image, then convert the features. */
  function ConvertRequest(req: VisionRequest, decode: Base64Decoder, known: set<string>): (r: Result<Sdk.AnnotateImageRequest, HttpError>)
    ensures r.Success? <==> RequestConverts(req, decode, known)
    ensures r.Success? ==> ConvertedFrom(r.value, req, decode)
    ensures decode(req.image.content).Failure? ==>
              r == Failure(HttpError(400, BASE64_ERROR_PREFIX + decode(req.image.content).error))
    ensures decode(req.image.content).Success? && r.Failure? ==>
              exists j :: 0 <= j < |req.features| && FirstUnknown(req.features, known, j)
                          && r.error == HttpError(400, UNSUPPORTED_FEATURE_PREFIX + req.features[j].featureType)
  {
    match decode(req.image.content)
    case Failure(e) => Failure(HttpError(400, BASE64_ERROR_PREFIX + e))
    case Success(content) =>
      var features :- ConvertFeatures(req.features, known);
      Success(Sdk.AnnotateImageRequest(Sdk.Image(content), features))
  }

  /** The requests of a batch, in order; the first request that does not convert
      aborts the whole batch and no partial list is returned. */
  function ConvertRequests(rs: seq<VisionRequest>, decode: Base64Decoder, known: set<string>)
    : (r: Result<seq<Sdk.AnnotateImageRequest>, HttpError>)
    ensures r.Success? <==> forall i :: 0 <= i < |rs| ==> RequestConverts(rs[i], decode, known)
    ensures r.Success? ==> |r.value| == |rs|
    ensures r.Success? ==> forall i :: 0 <= i < |rs| ==> ConvertedFrom(r.value[i], rs[i], decode)
    ensures r.Failure? ==> exists i :: 0 <= i < |rs|
                             && (forall k :: 0 <= k < i ==> RequestConverts(rs[k], decode, known))
                             && !RequestConverts(rs[i], decode, known)
                             && r.error == ConvertRequest(rs[i], decode, known).error
    decreases |rs|
  {
    if |rs| == 0 then Success([])
    else
      var head :- ConvertRequest(rs[0], decode, known);
      var tail :- ConvertRequests(rs[1..], decode, known);
      Success([head] + tail)
  }

  /** `_convert_to_vision_requests`. */
  function ConvertToVisionRequests(batch: VisionBatchRequest, decode: Base64Decoder, known: set<string>)
    : (r: Result<seq<Sdk.AnnotateImageRequest>, HttpError>)
    ensures r.Success? <==> forall i :: 0 <= i < |batch.requests| ==> RequestConverts(batch.requests[i], decode, known)
    ensures r.Success? ==> |r.value| == |batch.requests|
    ensures r.Success? ==> forall i :: 0 <= i < |batch.requests| ==> ConvertedFrom(r.value[i], batch.requests[i], decode)
    ensures r.Failure? ==>
              r.error.status == 400
              && (StartsWith(r.error.detail, BASE64_ERROR_PREFIX) || StartsWith(r.error.detail, UNSUPPORTED_FEATURE_PREFIX))
  {
    ConversionErrorsAreBadRequests(batch.requests, decode, known);
    ConvertRequests(batch.requests, decode, known)
  }

  /** A failed conversion is a 400 carrying one of the two conversion prefixes. */
  lemma ConversionErrorsAreBadRequests(rs: seq<VisionRequest>, decode: Base64Decoder, known: set<string>)
    ensures var r := ConvertRequests(rs, decode, known);
            r.Failure? ==> r.error.status == 400
                           && (StartsWith(r.error.detail, BASE64_ERROR_PREFIX)
                               || StartsWith(r.error.detail, UNSUPPORTED_FEATURE_PREFIX))
  {
    var r := ConvertRequests(rs, decode, known);
    if r.Failure? {
      var i :| 0 <= i < |rs| && !RequestConverts(rs[i], decode, known) && r.error == ConvertRequest(rs[i], decode, known).error;
      if decode(rs[i].image.content).Failure? {
        PrefixOfConcat(BASE64_ERROR_PREFIX, decode(rs[i].image.content).error);
      } else {
        var c := ConvertRequest(rs[i], decode, known);
        assert c.Failure?;
        var j :| 0 <= j < |rs[i].features| && FirstUnknown(rs[i].features, known, j)
                 && c.error == HttpError(400, UNSUPPORTED_FEATURE_PREFIX + rs[i].features[j].featureType);
        PrefixOfConcat(UNSUPPORTED_FEATURE_PREFIX, rs[i].features[j].featureType);
      }
    }
  }

  lemma PrefixOfConcat(p: string, s: string)
    ensures StartsWith(p + s, p)
  {
    assert (p + s)[..|p|] == p;
  }

  // ---------------------------------------------------------------------------
  // Responses
  // ---------------------------------------------------------------------------

  function EntityOf(e: Sdk.WebEntity): WebEntity {
    WebEntity(Some(e.entityId), Some(e.score), Some(e.description))
  }

  function ImageOf(img: Sdk.WebImage): WebImage {
    WebImage(Some(img.url))
  }

  function LabelOf(l: Sdk.WebLabel): BestGuessLabel {
    BestGuessLabel(Some(l.labelText), Some(l.languageCode))
  }

  /** A list of SDK images as application images, one for one, in order. */
  function ImagesOf(xs: seq<Sdk.WebImage>): (ys: seq<WebImage>)
    ensures |ys| == |xs|
    ensures forall i :: 0 <= i < |xs| ==> ys[i].url == Some(xs[i].url)
  {
    seq(|xs|, i requires 0 <= i < |xs| => ImageOf(xs[i]))
  }

  /** A page with its own full and partial image lists converted. */
  function PageOf(p: Sdk.WebPage): (q: WebPage)
    ensures q.url == Some(p.url) && q.pageTitle == Some(p.pageTitle)
    ensures q.fullMatchingImages == ImagesOf(p.fullMatchingImages)
    ensures q.partialMatchingImages == ImagesOf(p.partialMatchingImages)
  {
    WebPage(Some(p.url), Some(p.pageTitle), ImagesOf(p.fullMatchingImages), ImagesOf(p.partialMatchingImages))
  }

  /** `_convert_web_detection`: every list keeps its length and order, including the
      image lists nested in each page; every field is carried over except the scores
      of images and pages, which the application models do not have. */
  function ConvertWebDetection(w: Sdk.WebDetection): (r: WebDetection)
    ensures |r.webEntities| == |w.webEntities|
    ensures forall i :: 0 <= i < |w.webEntities| ==> r.webEntities[i] == EntityOf(w.webEntities[i])
    ensures r.fullMatchingImages == ImagesOf(w.fullMatchingImages)
    ensures r.partialMatchingImages == ImagesOf(w.partialMatchingImages)
    ensures |r.pagesWithMatchingImages| == |w.pagesWithMatchingImages|
    ensures forall i :: 0 <= i < |w.pagesWithMatchingImages| ==>
              r.pagesWithMatchingImages[i] == PageOf(w.pagesWithMatchingImages[i])
    ensures r.visuallySimilarImages == ImagesOf(w.visuallySimilarImages)
    ensures |r.bestGuessLabels| == |w.bestGuessLabels|
    ensures forall i :: 0 <= i < |w.bestGuessLabels| ==> r.bestGuessLabels[i] == LabelOf(w.bestGuessLabels[i])
  {
    WebDetection(
      seq(|w.webEntities|, i requires 0 <= i < |w.webEntities| => EntityOf(w.webEntities[i])),
      ImagesOf(w.fullMatchingImages),
      ImagesOf(w.partialMatchingImages),
      seq(|w.pagesWithMatchingImages|, i requires 0 <= i < |w.pagesWithMatchingImages| => PageOf(w.pagesWithMatchingImages[i])),
      ImagesOf(w.visuallySimilarImages),
      seq(|w.bestGuessLabels|, i requires 0 <= i < |w.bestGuessLabels| => LabelOf(w.bestGuessLabels[i])))
  }

  /** One image's response: a non-empty error message wins; otherwise web-detection
      data is copied only when the message is set. */
  function ConvertImageResponse(a: Sdk.AnnotateImageResponse): (r: VisionResponse)
    ensures r.error.Some? <==> a.error.message != ""
    ensures r.error.Some? ==> r.error.value == ErrorInfo(a.error.code, a.error.message)
    ensures r.webDetection.Some? <==> a.error.message == "" && Sdk.IsSet(a.webDetection)
    ensures r.webDetection.Some? ==> r.webDetection.value == ConvertWebDetection(a.webDetection)
    ensures r.error.None? || r.webDetection.None?
  {
    if a.error.message != "" then
      VisionResponse(None, Some(ErrorInfo(a.error.code, a.error.message)))
    else if Sdk.IsSet(a.webDetection) then
      VisionResponse(Some(ConvertWebDetection(a.webDetection)), None)
    else
      VisionResponse(None, None)
  }

  /** `_convert_to_response`: one response per upstream response, in order. */
  function ConvertToResponse(resp: Sdk.BatchAnnotateImagesResponse): (r: VisionBatchResponse)
    ensures |r.responses| == |resp.responses|
    ensures forall i :: 0 <= i < |resp.responses| ==> r.responses[i] == ConvertImageResponse(resp.responses[i])
    ensures forall i :: 0 <= i < |r.responses| ==> r.responses[i].error.None? || r.responses[i].webDetection.None?
  {
    VisionBatchResponse(seq(|resp.responses|, i requires 0 <= i < |resp.responses| => ConvertImageResponse(resp.responses[i])))
  }

  // ---------------------------------------------------------------------------
  // The service call
  // ---------------------------------------------------------------------------

  /** A `web_detection` call: its result and the batch handed to the SDK, if any. */
  datatype VisionCall = VisionCall(result: Result<VisionBatchResponse, HttpError>,
                                   annotated: Option<seq<Sdk.AnnotateImageRequest>>)

  /** `VisionService.web_detection`: convert, call the API, convert back; whatever is
      raised on the way, including the 400s of the conversion, becomes a 500 whose
      detail is the prefix and `str()` of the exception. */
  function WebDetectionCall(batch: VisionBatchRequest, decode: Base64Decoder, known: set<string>,
                            annotate: Annotator): (r: VisionCall)
    ensures r.result.Failure? ==> r.result.error.status == 500 && StartsWith(r.result.error.detail, API_ERROR_PREFIX)
    ensures r.annotated.Some? <==> ConvertToVisionRequests(batch, decode, known).Success?
    ensures r.annotated.Some? ==>
              r.annotated.value == ConvertToVisionRequests(batch, decode, known).value
              && |r.annotated.value| == |batch.requests|
    ensures r.annotated.None? ==>
              r.result == Failure(HttpError(500, API_ERROR_PREFIX + ErrorString(ConvertToVisionRequests(batch, decode, known).error)))
    ensures r.result.Success? ==>
              r.annotated.Some? && annotate(r.annotated.value).Success?
              && r.result.value == ConvertToResponse(annotate(r.annotated.value).value)
    ensures r.annotated.Some? && annotate(r.annotated.value).Success? ==>
              r.result == Success(ConvertToResponse(annotate(r.annotated.value).value))
    ensures r.annotated.Some? && annotate(r.annotated.value).Failure? ==>
              r.result == Failure(HttpError(500, API_ERROR_PREFIX + annotate(r.annotated.value).error))
  {
    match ConvertToVisionRequests(batch, decode, known)
    case Failure(e) =>
      PrefixOfConcat(API_ERROR_PREFIX, ErrorString(e));
      VisionCall(Failure(HttpError(500, API_ERROR_PREFIX + ErrorString(e))), None)
    case Success(requests) =>
      match annotate(requests)
      case Failure(message) =>
        PrefixOfConcat(API_ERROR_PREFIX, message);
        VisionCall(Failure(HttpError(500, API_ERROR_PREFIX + message)), Some(requests))
      case Success(resp) =>
        VisionCall(Success(ConvertToResponse(resp)), Some(requests))
  }

  // ---------------------------------------------------------------------------
  // Properties
  // ---------------------------------------------------------------------------

  /** The URLs of a list of SDK images, in order: all that their conversion keeps. */
  function Urls(xs: seq<Sdk.WebImage>): seq<string> {
    seq(|xs|, i requires 0 <= i < |xs| => xs[i].url)
  }

  /** Two SDK pages agree on everything but their own score and their images' scores. */
  predicate SamePageUpToScores(p1: Sdk.WebPage, p2: Sdk.WebPage) {
    && p1.url == p2.url
    && p1.pageTitle == p2.pageTitle
    && Urls(p1.fullMatchingImages) == Urls(p2.fullMatchingImages)
    && Urls(p1.partialMatchingImages) == Urls(p2.partialMatchingImages)
  }

  /** Two SDK results agree on everything but the scores of images and pages; the
      entities, scores included, and the labels are equal. */
  predicate SameUpToScores(w1: Sdk.WebDetection, w2: Sdk.WebDetection) {
    && w1.webEntities == w2.webEntities
    && Urls(w1.fullMatchingImages) == Urls(w2.fullMatchingImages)
    && Urls(w1.partialMatchingImages) == Urls(w2.partialMatchingImages)
    && |w1.pagesWithMatchingImages| == |w2.pagesWithMatchingImages|
    && (forall i :: 0 <= i < |w1.pagesWithMatchingImages| ==>
          SamePageUpToScores(w1.pagesWithMatchingImages[i], w2.pagesWithMatchingImages[i]))
    && Urls(w1.visuallySimilarImages) == Urls(w2.visuallySimilarImages)
    && w1.bestGuessLabels == w2.bestGuessLabels
  }

  /** Two image lists convert alike exactly when their URLs agree, position by position. */
  lemma ImagesOfIffUrls(xs: seq<Sdk.WebImage>, ys: seq<Sdk.WebImage>)
    ensures ImagesOf(xs) == ImagesOf(ys) <==> Urls(xs) == Urls(ys)
  {
    if ImagesOf(xs) == ImagesOf(ys) {
      forall i | 0 <= i < |xs|
        ensures Urls(xs)[i] == Urls(ys)[i]
      {
        assert ImagesOf(xs)[i] == ImagesOf(ys)[i];
      }
    }
    if Urls(xs) == Urls(ys) {
      forall i | 0 <= i < |xs|
        ensures ImagesOf(xs)[i] == ImagesOf(ys)[i]
      {
        assert Urls(xs)[i] == Urls(ys)[i];
      }
    }
  }

  /** Two pages convert alike exactly when they agree on everything but scores. */
  lemma PageOfIffSamePage(p1: Sdk.WebPage, p2: Sdk.WebPage)
    ensures PageOf(p1) == PageOf(p2) <==> SamePageUpToScores(p1, p2)
  {
    ImagesOfIffUrls(p1.fullMatchingImages, p2.fullMatchingImages);
    ImagesOfIffUrls(p1.partialMatchingImages, p2.partialMatchingImages);
  }

  /** Response conversion drops the scores of images and pages and nothing else: two
      SDK results convert alike exactly when they agree on everything else. */
  lemma ConvertWebDetectionDropsOnlyScores(w1: Sdk.WebDetection, w2: Sdk.WebDetection)
    ensures ConvertWebDetection(w1) == ConvertWebDetection(w2) <==> SameUpToScores(w1, w2)
  {
    var r1, r2 := ConvertWebDetection(w1), ConvertWebDetection(w2);
    ImagesOfIffUrls(w1.fullMatchingImages, w2.fullMatchingImages);
    ImagesOfIffUrls(w1.partialMatchingImages, w2.partialMatchingImages);
    ImagesOfIffUrls(w1.visuallySimilarImages, w2.visuallySimilarImages);
    if r1 == r2 {
      assert w1.webEntities == w2.webEntities by {
        forall i | 0 <= i < |w1.webEntities|
          ensures w1.webEntities[i] == w2.webEntities[i]
        {
          assert r1.webEntities[i] == r2.webEntities[i];
        }
      }
      forall i | 0 <= i < |w1.pagesWithMatchingImages|
        ensures SamePageUpToScores(w1.pagesWithMatchingImages[i], w2.pagesWithMatchingImages[i])
      {
        assert r1.pagesWithMatchingImages[i] == r2.pagesWithMatchingImages[i];
        PageOfIffSamePage(w1.pagesWithMatchingImages[i], w2.pagesWithMatchingImages[i]);
      }
      assert w1.bestGuessLabels == w2.bestGuessLabels by {
        forall i | 0 <= i < |w1.bestGuessLabels|
          ensures w1.bestGuessLabels[i] == w2.bestGuessLabels[i]
        {
          assert r1.bestGuessLabels[i] == r2.bestGuessLabels[i];
        }
      }
    }
    if SameUpToScores(w1, w2) {
      assert r1.webEntities == r2.webEntities;
      assert r1.pagesWithMatchingImages == r2.pagesWithMatchingImages by {
        forall i | 0 <= i < |w1.pagesWithMatchingImages|
          ensures r1.pagesWithMatchingImages[i] == r2.pagesWithMatchingImages[i]
        {
          PageOfIffSamePage(w1.pagesWithMatchingImages[i], w2.pagesWithMatchingImages[i]);
        }
      }
      assert r1.bestGuessLabels == r2.bestGuessLabels;
    }
  }

  /** Two results that differ only in one image's score convert to the same thing, so
      the conversion is not one-to-one. */
  lemma ImageScoreIsDropped(url: string, s1: Score, s2: Score)
    requires s1 != s2
    ensures var w1 := Sdk.EMPTY_WEB_DETECTION.(fullMatchingImages := [Sdk.WebImage(url, s1)]);
            var w2 := Sdk.EMPTY_WEB_DETECTION.(fullMatchingImages := [Sdk.WebImage(url, s2)]);
            w1 != w2 && ConvertWebDetection(w1) == ConvertWebDetection(w2)
  {
    var w1 := Sdk.EMPTY_WEB_DETECTION.(fullMatchingImages := [Sdk.WebImage(url, s1)]);
    var w2 := Sdk.EMPTY_WEB_DETECTION.(fullMatchingImages := [Sdk.WebImage(url, s2)]);
    assert w1.fullMatchingImages[0] != w2.fullMatchingImages[0];
    ConvertWebDetectionDropsOnlyScores(w1, w2);
    assert Urls(w1.fullMatchingImages) == Urls(w2.fullMatchingImages) by {
      assert Urls(w1.fullMatchingImages)[0] == Urls(w2.fullMatchingImages)[0];
    }
  }

  /** A batch whose second image is not valid base64 fails as a whole, even if the
      first converts, and the API is never called. */
  lemma BadBase64AbortsBatch(first: VisionRequest, second: VisionRequest, decode: Base64Decoder,
                             known: set<string>, annotate: Annotator)
    requires RequestConverts(first, decode, known)
    requires decode(second.image.content).Failure?
    ensures var r := WebDetectionCall(VisionBatchRequest([first, second]), decode, known, annotate);
            && r.annotated.None?
            && r.result == Failure(HttpError(500, API_ERROR_PREFIX + "400: " + BASE64_ERROR_PREFIX
                                                  + decode(second.image.content).error))
  {
    var rs := [first, second];
    assert rs[1..] == [second];
    var e := HttpError(400, BASE64_ERROR_PREFIX + decode(second.image.content).error);
    assert ConvertRequests(rs, decode, known) == Failure(e);
    assert ConvertToVisionRequests(VisionBatchRequest(rs), decode, known) == Failure(e);
    assert NatToString(400) == "400" by {
      assert NatToString(4) == "4";
      assert NatToString(40) == "40";
    }
    assert ErrorString(e) == "400: " + e.detail;
    assert API_ERROR_PREFIX + ErrorString(e) == API_ERROR_PREFIX + "400: " + BASE64_ERROR_PREFIX + decode(second.image.content).error;
  }

  /** An unknown feature name aborts the conversion with a 400 that names it. */
  lemma UnknownFeatureIsRejected(req: VisionRequest, decode: Base64Decoder, known: set<string>, j: nat)
    requires decode(req.image.content).Success?
    requires j < |req.features| && FirstUnknown(req.features, known, j)
    ensures ConvertRequests([req], decode, known)
         == Failure(HttpError(400, UNSUPPORTED_FEATURE_PREFIX + req.features[j].featureType))
  {
    var r := ConvertRequest(req, decode, known);
    assert r.Failure?;
    var j' :| 0 <= j' < |req.features| && FirstUnknown(req.features, known, j')
              && r.error == HttpError(400, UNSUPPORTED_FEATURE_PREFIX + req.features[j'].featureType);
    assert j' == j;
  }
}
